=== FILE: README.md ===
# vsbillboards camera and input core in Dafny

This project models the sequential logic of the vsbillboards demo. The demo draws
camera-facing sprites with instanced OpenGL draws and lets the user fly a camera
around them. Everything is modelled over mathematical reals, not IEEE floats.

- `vectors.dfy` (module `Vectors`): exact `vec3`, `vec4` and column-major `mat4`, with
  `+`, `-`, scalar `*`, `dot`, `cross` and `mat4 * vec4`.
- `glm.dfy` (module `Glm`): the three glm routines the camera calls. `normalize`,
  `rotate` and `lookAt` are fields of a `Glm` record of function values that every
  camera operation takes as a parameter. One property is assumed, and only where a
  contract says `Valid(g)`: for a nonzero `v`, `normalize(v)` is the unit vector
  along `v`. It has unit length, a zero cross product with `v` and a positive dot
  product with `v`. `rotate` and `lookAt` stay uninterpreted.
- `util.dfy` (module `Util`): `deg_to_rad` and `get_resource_path`. The second covers
  the 64-bit `size_t` wrap-around of `find_last_of("bin") - 2`, the process-wide cache
  (an explicit value here) and the `sub_dir` suffix.
- `camera.dfy` (module `FreeFlyCamera`): the `Camera` record (eye, look-at point,
  up, cached view matrix), its constructor, the six gestures as pure functions,
  the accessors, and the properties that relate gestures.
- `events.dfy` (module `EventLoop`): `move_camera` and the per-frame event handling
  in `run`. This covers the dispatch of key and mouse events, the `quit` flag, and
  the `update_view` flag that decides when the camera is uploaded to the shaders.

Two facts about the code that are easy to get wrong:

- `cross((0,0,-1), (0,1,0))` is `(1,0,0)`, so `strafe_horiz(1)` from the starting
  camera (eye (0,0,5), looking at the origin, up (0,1,0)) moves the eye to (1,0,5)
  and the look-at point to (1,0,0) (`FreeFlyCamera.StartStrafeHoriz`).
- `deg_to_rad` multiplies by the literal 0.01745, slightly less than pi/180, so
  180 degrees become 3.141 radians (`Util.DegToRadHalfTurn`).

## Model

| member | source | states |
|---|---|---|
| Util.DegToRad | include/util.h:12-14 | the conversion keeps the sign of the angle and maps zero to zero |
| Util.DegToRadOdd | include/util.h:12-14 | opposite angles in degrees give opposite angles in radians, so roll(5) and roll(-5) turn by opposite angles |
| Util.DegToRadAdditive | include/util.h:12-14 | the conversion is additive |
| Util.DegToRadStrictlyIncreasing | include/util.h:12-14 | the conversion is strictly increasing |
| Util.DegToRadHalfTurn | include/util.h:12-14 | 180 degrees come out as 3.141, below pi: the factor 0.01745 is not pi/180 |
| Util.FindLastOf | src/util.cpp:32 | `find_last_of` finds the last character of the set and no later one matches; it finds nothing exactly when no character matches |
| Util.ResCut | src/util.cpp:32 | the cut position is a `size_t` value, below 2^64 |
| Util.Prefix | src/util.cpp:33 | `substr(0, n)` is a prefix of the string, of length n unless the string is shorter |
| Util.DeriveBaseRes | src/util.cpp:31-33 | the derived directory ends in `res` and the separator, after a prefix of the executable's directory |
| Util.BinDirBecomesResDir | src/util.cpp:31-33 | a directory ending in `bin` and the separator becomes the sibling `res` directory |
| Util.BinDirExample | src/util.cpp:31-33 | `/x/bin/` becomes `/x/res/` |
| Util.DeriveBaseResCases | src/util.cpp:32-33 | when the last `b`, `i` or `n` is at index 0 or 1 or absent, the subtraction wraps and the whole path is kept; otherwise the path is cut two characters before it |
| Util.WrappingSubtractTwo | src/util.cpp:32 | `x - 2` in `size_t` is exact from 2 upwards and wraps to 2^64 - 2 + x below 2 |
| Util.GetResourcePath | src/util.cpp:14-39 | with no executable directory the call returns "" and keeps the cache empty; a filled cache is kept; the first derivation fills it; an empty `sub_dir` returns the cached directory, any other returns it plus `sub_dir` plus the separator; every non-empty result ends in the separator |
| Util.CachedPathIgnoresBasePath | src/util.cpp:20-21 | once the cache is filled, the result does not depend on the executable's directory |
| Util.FirstSuccessIsFinal | src/util.cpp:20-34 | after a successful first call every later call reuses the same directory |
| Util.FailureIsRetried | src/util.cpp:22-30 | after a failed call, the next call behaves exactly as a first call |
| Glm.NormalizeIsUnit | src/camera.cpp:55-57 | a valid `normalize` returns a nonzero unit vector for every nonzero input |
| FreeFlyCamera.Make | src/camera.cpp:6-8 | the constructor stores eye, look-at point and up verbatim, with no normalisation, and the view is the look-at matrix of them |
| FreeFlyCamera.ViewMat | src/camera.cpp:49-51 | `view_mat()` returns the cached view matrix and changes nothing; the matrix is the look-at matrix of the fields after any gestures (see ViewNeverStale) |
| FreeFlyCamera.EyePos | src/camera.cpp:52-54 | `eye_pos()` returns the stored eye position and changes nothing |
| FreeFlyCamera.ViewDir | src/camera.cpp:55-57 | when eye and look-at point differ, the view direction is the unit vector from eye to look-at point |
| FreeFlyCamera.Horiz | src/camera.cpp:16 | the horizontal axis is perpendicular to the view direction and to up |
| FreeFlyCamera.Vert | src/camera.cpp:22-23 | the vertical axis is perpendicular to the view direction and to the horizontal axis |
| FreeFlyCamera.Zoom | src/camera.cpp:9-14 | eye and look-at point move by the same displacement, `dist` times the view direction, which has squared length dist^2 when eye and look-at point differ; up, `center - eye` and the view direction are kept; the view is refreshed |
| FreeFlyCamera.StrafeHoriz | src/camera.cpp:15-20 | eye and look-at point move by `dist * cross(view_dir, up)`, not renormalised; up, `center - eye` and the view direction are kept; the view is refreshed |
| FreeFlyCamera.StrafeHorizPerpendicular | src/camera.cpp:15-20 | the horizontal strafe moves perpendicular to the view direction and to up |
| FreeFlyCamera.StrafeVert | src/camera.cpp:21-27 | eye and look-at point move by `dist * cross(cross(view_dir, up), view_dir)`; up, `center - eye` and the view direction are kept; the view is refreshed |
| FreeFlyCamera.StrafeVertPerpendicular | src/camera.cpp:21-27 | the vertical strafe moves perpendicular to the view direction and to the horizontal axis |
| FreeFlyCamera.Pitch | src/camera.cpp:28-35 | the eye stays put; the look-at point is one unit from the eye along the rotated view direction; up becomes the unit vector along the rotated up; the view is refreshed |
| FreeFlyCamera.Roll | src/camera.cpp:36-40 | eye and look-at point stay put, so the view direction is kept; up becomes the unit vector along up rotated about the view direction; the view is refreshed |
| FreeFlyCamera.Yaw | src/camera.cpp:41-48 | eye and up stay put; the look-at point is one unit from the eye along the view direction rotated about the vertical axis; the view is refreshed |
| FreeFlyCamera.Apply | include/camera.h:11-17 | whichever of the six mutators runs, the view matrix afterwards is the look-at matrix of the new fields |
| FreeFlyCamera.ViewNeverStale | src/camera.cpp:6-48 | after any sequence of gestures on a constructed camera, `view_mat()` is the look-at matrix of `eye_pos()`, the look-at point and up |
| FreeFlyCamera.ViewCurrentPreserved | src/camera.cpp:6-48 | no sequence of gestures makes a current view matrix stale |
| FreeFlyCamera.TranslationsKeepOrientation | src/camera.cpp:9-27 | any run of zooms and strafes keeps `center - eye`, the view direction and up |
| FreeFlyCamera.RotationsKeepEye | src/camera.cpp:28-48 | any run of pitches, yaws and rolls keeps the eye |
| FreeFlyCamera.ZoomUndo | src/camera.cpp:9-14 | zoom(-d) after zoom(d) restores the camera exactly |
| FreeFlyCamera.StrafeHorizUndo | src/camera.cpp:15-20 | strafe_horiz(-d) after strafe_horiz(d) restores the camera exactly |
| FreeFlyCamera.StrafeVertUndo | src/camera.cpp:21-27 | strafe_vert(-d) after strafe_vert(d) restores the camera exactly |
| FreeFlyCamera.TranslationUndo | src/camera.cpp:9-27 | every translation gesture is undone by the same gesture with the negated argument |
| FreeFlyCamera.RollBackUsesOppositeAngle | src/camera.cpp:36-38 | roll(-d) after roll(d) rotates by the opposite angle about the same axis |
| FreeFlyCamera.StartCamera | src/main.cpp:78 | the program's camera has a current view matrix |
| FreeFlyCamera.StartViewDir | src/camera.cpp:55-57 | from eye (0,0,5) looking at the origin the view direction is (0,0,-1) |
| FreeFlyCamera.StartZoom | src/camera.cpp:9-14 | from that camera zoom(1) gives eye (0,0,4) and look-at point (0,0,-1) |
| FreeFlyCamera.StartStrafeHoriz | src/camera.cpp:15-20 | from that camera strafe_horiz(1) gives eye (1,0,5) and look-at point (1,0,0) |
| EventLoop.MoveCamera | src/main.cpp:255-292 | `move_camera` returns true exactly when the event is bound to gestures, and leaves the camera unchanged when it returns false |
| EventLoop.MoveCameraFollowsBindings | src/main.cpp:255-292 | the camera changes by exactly the event's gestures from the binding table, in order: pitch(-yrel/10) before yaw(-xrel/10) for mouse motion |
| EventLoop.BoundKeyFollowsBinding | src/main.cpp:257-281 | each of d, a, w, s, q, e, r, f runs the gesture the table binds it to |
| EventLoop.UnboundKeyLeavesCamera | src/main.cpp:282-291 | any other key leaves the camera as it was |
| EventLoop.EventEffects | src/main.cpp:257-290 | mouse motion never moves the eye, the roll keys change only up, and the movement keys never turn the camera |
| EventLoop.OppositeKeysCancel | src/main.cpp:257-275 | a movement key followed by its opposite restores the camera exactly |
| EventLoop.RollKeysOpposite | src/main.cpp:276-281 | after r, the f key rotates back by the opposite angle about the same axis |
| EventLoop.IsQuit | src/main.cpp:217 | an event ends the loop when it is the window's quit event or a key-down of Escape |
| EventLoop.Dispatched | src/main.cpp:220-221 | `move_camera` sees every key-down other than Escape, and mouse motion only while the left button is held |
| EventLoop.HandleEvent | src/main.cpp:216-224 | quit and Escape set `quit` and never reach `move_camera`; events that are not dispatched change nothing else; dispatched events apply their gestures and set `update_view` from whether they moved the camera, overwriting it as written or OR-ing it in when accumulated |
| EventLoop.PollEvents | src/main.cpp:216-225 | the events of one frame are handled one after the other in arrival order; what a batch does is stated by CameraSeesDispatchedEvents, QuitIsLatched, OverwriteKeepsOnlyLast and AccumulateRemembersAnyMove |
| EventLoop.CameraSeesDispatchedEvents | src/main.cpp:215-224 | after a batch, the camera has undergone exactly the gestures of the dispatched events, in order; mouse motion without the left button is ignored |
| EventLoop.QuitIsLatched | src/main.cpp:216-218 | `quit` is set after a batch exactly when it was set before or the batch holds a quit or Escape event |
| EventLoop.OverwriteKeepsOnlyLast | src/main.cpp:223 | as written, `update_view` after a batch says only whether the last dispatched event moved the camera |
| EventLoop.AccumulateRemembersAnyMove | src/main.cpp:223 | with the flag accumulated, it is set exactly when it was set before or some dispatched event moved the camera |
| EventLoop.AccumulateClearMeansUnmoved | src/main.cpp:223 | with the flag accumulated, a batch that leaves it clear has not moved the camera |
| EventLoop.Start | src/main.cpp:78-93 | the loop starts with the program's camera uploaded and both flags clear |
| EventLoop.Frame | src/main.cpp:215-235 | a frame uploads view matrix and eye position exactly when the flag is set after polling, and always ends with the flag clear |
| EventLoop.Run | src/main.cpp:212-247 | a loop that has quit stays as it is, and no frame after the one that sets `quit` runs; the loop ends with `quit` set exactly when some frame held a quit or Escape event; when no frame did, every frame has run and the camera has undergone exactly the gestures of all dispatched events of all frames, in order |
| EventLoop.DispatchedCommandsAppend | src/main.cpp:214-225 | the dispatched gestures of two batches in a row are those of the first batch followed by those of the second |
| EventLoop.OverwriteLosesMove | src/main.cpp:223-226 | as written, a `w` press followed by an unbound key in one frame leaves the shaders with eye (0,0,5) while the camera's eye is at (0,0,4.7) |
| EventLoop.AccumulateFrameKeepsUploadCurrent | src/main.cpp:223-234 | with the flag accumulated, every frame ends with the shaders seeing the current camera |
| EventLoop.AccumulateRunKeepsUploadCurrent | src/main.cpp:212-235 | with the flag accumulated, the shaders see the current camera after any number of frames |

## Left out

- OpenGL and SDL calls are not modelled. This covers window and context setup, buffer mapping, vertex arrays, draw calls, error logging, the projection matrix and the colour and position buffers. The upload of the viewing block is modelled as the pair of values it writes.
- Shader and texture loading, `read_file`, `log_glerror` and `gldebug_callback` are file and driver I/O.
- The lfwatch hot-reload watcher is file-system event plumbing.
- glm internals are not modelled: the rotation matrix entries (sine and cosine) and the look-at and perspective layouts. Only the meaning of `normalize` on nonzero vectors is assumed. What `normalize` returns for the zero vector (NaN in floating point) is left open.
- IEEE float rounding and drift are not modelled. Components are reals, so the exact round trips hold over the reals only, and the literal 0.01745f is the exact real 0.01745.
- No inverse is stated for pitch, yaw or roll. Undoing a rotation needs the rotation matrices, which stay uninterpreted.
- FreeFlyCamera.Pitch promises unit length of the new view direction and up only when the rotated vectors are nonzero. With `rotate` uninterpreted, nothing excludes a rotation that sends a vector to zero.
- FreeFlyCamera.Yaw promises unit length of the new view direction only when the rotated view direction is nonzero, for the same reason.
- FreeFlyCamera.Roll promises unit length of the new up only when the rotated up is nonzero, for the same reason.
- FreeFlyCamera.ViewDir promises a unit vector only when eye and look-at point differ. The source normalises the zero vector otherwise.
- FreeFlyCamera.Zoom states the squared length of the displacement (dist^2) rather than its length |dist|, to avoid square roots.
- EventLoop.MoveCamera negates the mouse deltas as unbounded integers. The wrap of `-yrel` at the most negative 32-bit value is not modelled.
- EventLoop.Dispatched takes the left-button state as part of each polled event. SDL returns that state when the loop looks at the event.
- SDL key codes are the character codes of the lower-case letters, and 27 for Escape, as in SDL2. Event kinds other than quit, key-down and mouse motion are one `Other` case.
- Util.FindLastOf works on a path as a sequence of Unicode characters. The source's `find_last_of` counts bytes of the UTF-8 path that SDL returns, so the positions agree only on ASCII paths.
- Util.DeriveBaseRes cuts the path two characters before the last `b`, `i` or `n`, where the source's `substr` cuts two bytes before it. The results agree only on ASCII paths: for "/éi/" the source keeps "/" and the model keeps nothing.
- Util.DeriveBaseResCases states the cut in characters, so it describes the source only on ASCII paths.
- Util.GetResourcePath does not model the message written to the standard error stream when the executable's directory is unavailable; only the empty result and the untouched cache are modelled.
- Util.DeriveBaseResCases assumes a path shorter than 2^64 - 2 characters, and `size_t` is taken to be 64 bits wide.
- `view_mat()` and `eye_pos()` return const references in the source. In the value model they are plain reads, so they cannot change state.

## Findings

| source | as written | input that shows it | evidently intended | confidence | as-written member | corrected member |
|---|---|---|---|---|---|---|
| src/main.cpp:223 | each dispatched event assigns `update_view = move_camera(camera, e)`, so a later event that does not move the camera clears a pending upload | from the starting camera, one frame holding a `w` key-down then an `x` key-down: the camera zooms to eye (0,0,4.7) but the viewing block keeps eye (0,0,5) until the next moving event | `update_view` accumulates over the batch (`update_view = move_camera(camera, e) \|\| update_view`), so every frame ends with the shaders seeing the current camera | high; not executed | EventLoop.OverwriteLosesMove | EventLoop.AccumulateRunKeepsUploadCurrent |

=== FILE: camera.dfy ===
/**
  The free-fly camera: an eye position, a look-at point and an up vector, plus
  the view matrix cached from them. Each of the six navigation gestures is a
  pure function from the old camera to the new one, and each ends by
  recomputing the view matrix from the new fields, as the program's mutators
  do in place.

  glm's `normalize`, `rotate` and `lookAt` arrive through the `Glm` record `g`;
  results that depend on what `normalize` means are stated under `Valid(g)`.
 */
module FreeFlyCamera {
  import opened Vectors
  import opened Glm
  import opened Util

  /** The whole state of a camera: nothing else is stored. `view_dir` is derived,
      not stored. */
  datatype Camera = Camera(eye: Vec3, center: Vec3, up: Vec3, view: Mat4)

  /** The cached view matrix is the look-at matrix of the current fields. */
  predicate ViewCurrent(g: Glm, c: Camera) {
    c.view == g.lookAt(c.eye, c.center, c.up)
  }

  /** The constructor: the three vectors are stored as given (in particular `up` is
      not normalised) and the view matrix is computed from them. */
  function Make(g: Glm, eye: Vec3, center: Vec3, up: Vec3): (c: Camera)
    ensures c.eye == eye && c.center == center && c.up == up
    ensures ViewCurrent(g, c)
  {
    Camera(eye, center, up, g.lookAt(eye, center, up))
  }

  /** `view_mat()`: the cached matrix, read without changing anything. */
  function ViewMat(c: Camera): Mat4 {
    c.view
  }

  /** `eye_pos()`: the eye position, read without changing anything. */
  function EyePos(c: Camera): Vec3 {
    c.eye
  }

  /** `view_dir()`: recomputed from `center - eye` on every call. When the eye and
      the look-at point differ it is a unit vector pointing from one to the other. */
  function ViewDir(g: Glm, c: Camera): (d: Vec3)
    ensures Valid(g) && c.eye != c.center ==> UnitAlong(d, Sub(c.center, c.eye))
  {
    g.normalize(Sub(c.center, c.eye))
  }

  /** The horizontal axis `cross(view_dir(), up)`, deliberately not normalised. */
  function Horiz(g: Glm, c: Camera): (h: Vec3)
    ensures Dot(h, ViewDir(g, c)) == 0.0 && Dot(h, c.up) == 0.0
  {
    CrossPerpendicular(ViewDir(g, c), c.up);
    Cross(ViewDir(g, c), c.up)
  }

  /** The vertical axis `cross(horiz, view_dir())`, not normalised either. */
  function Vert(g: Glm, c: Camera): (v: Vec3)
    ensures Dot(v, ViewDir(g, c)) == 0.0 && Dot(v, Horiz(g, c)) == 0.0
  {
    CrossPerpendicular(Horiz(g, c), ViewDir(g, c));
    Cross(Horiz(g, c), ViewDir(g, c))
  }

  /** Moves the eye and the look-at point by the same displacement and refreshes the view. */
  function Translate(g: Glm, c: Camera, d: Vec3): (r: Camera)
    ensures ViewCurrent(g, r)
    ensures r.up == c.up
    ensures Sub(r.eye, c.eye) == d && Sub(r.center, c.center) == d
    ensures Sub(r.center, r.eye) == Sub(c.center, c.eye)
    ensures ViewDir(g, r) == ViewDir(g, c)
  {
    TranslateFacts(c.eye, c.center, d);
    TranslateFacts(c.center, c.eye, d);
    var eye := Add(c.eye, d);
    var center := Add(c.center, d);
    Camera(eye, center, c.up, g.lookAt(eye, center, c.up))
  }

  /** `zoom(dist)`: both points move `dist` along the view direction. The look
      direction and `up` are untouched, and the eye travels `dist` along the unit
      view direction when eye and look-at point differ. */
  function Zoom(g: Glm, c: Camera, dist: real): (r: Camera)
    ensures ViewCurrent(g, r)
    ensures r.up == c.up
    ensures Sub(r.center, r.eye) == Sub(c.center, c.eye)
    ensures ViewDir(g, r) == ViewDir(g, c)
    ensures Sub(r.eye, c.eye) == Scale(dist, ViewDir(g, c))
    ensures Sub(r.center, c.center) == Sub(r.eye, c.eye)
    ensures Valid(g) && c.eye != c.center ==> Norm2(Sub(r.eye, c.eye)) == dist * dist
  {
    var r := Translate(g, c, Scale(dist, ViewDir(g, c)));
    Norm2Scale(dist, ViewDir(g, c));
    r
  }

  /** `strafe_horiz(dist)`: both points move `dist` times the unnormalised
      horizontal axis, a displacement perpendicular to both the view direction
      and `up`. */
  function StrafeHoriz(g: Glm, c: Camera, dist: real): (r: Camera)
    ensures ViewCurrent(g, r)
    ensures r.up == c.up
    ensures Sub(r.center, r.eye) == Sub(c.center, c.eye)
    ensures ViewDir(g, r) == ViewDir(g, c)
    ensures Sub(r.eye, c.eye) == Scale(dist, Cross(ViewDir(g, c), c.up))
    ensures Sub(r.center, c.center) == Sub(r.eye, c.eye)
  {
    Translate(g, c, Scale(dist, Horiz(g, c)))
  }

  /** The `strafe_horiz` displacement is perpendicular to the view direction and to `up`. */
  lemma StrafeHorizPerpendicular(g: Glm, c: Camera, dist: real)
    ensures var d := Sub(StrafeHoriz(g, c, dist).eye, c.eye);
            Dot(d, ViewDir(g, c)) == 0.0 && Dot(d, c.up) == 0.0
  {
    DotScale(dist, Horiz(g, c), ViewDir(g, c));
    DotScale(dist, Horiz(g, c), c.up);
  }

  /** `strafe_vert(dist)`: both points move `dist` times the unnormalised vertical
      axis, a displacement perpendicular to the view direction and to the
      horizontal axis. */
  function StrafeVert(g: Glm, c: Camera, dist: real): (r: Camera)
    ensures ViewCurrent(g, r)
    ensures r.up == c.up
    ensures Sub(r.center, r.eye) == Sub(c.center, c.eye)
    ensures ViewDir(g, r) == ViewDir(g, c)
    ensures Sub(r.eye, c.eye) == Scale(dist, Cross(Cross(ViewDir(g, c), c.up), ViewDir(g, c)))
    ensures Sub(r.center, c.center) == Sub(r.eye, c.eye)
  {
    Translate(g, c, Scale(dist, Vert(g, c)))
  }

  /** The `strafe_vert` displacement is perpendicular to the view direction and to the
      horizontal axis. */
  lemma StrafeVertPerpendicular(g: Glm, c: Camera, dist: real)
    ensures var d := Sub(StrafeVert(g, c, dist).eye, c.eye);
            Dot(d, ViewDir(g, c)) == 0.0 && Dot(d, Horiz(g, c)) == 0.0
  {
    DotScale(dist, Vert(g, c), ViewDir(g, c));
    DotScale(dist, Vert(g, c), Horiz(g, c));
  }

  /** The rotation `pitch(deg)` applies: `deg` (converted by `deg_to_rad`) about the
      horizontal axis. */
  function PitchRotation(g: Glm, c: Camera, deg: real): Mat4 {
    g.rotate(DegToRad(deg), Horiz(g, c))
  }

  /** `pitch(deg)`: the eye stays put; the look-at point is reset to one unit from
      the eye along the rotated view direction, and `up` is rotated the same way
      and renormalised. */
  function Pitch(g: Glm, c: Camera, deg: real): (r: Camera)
    ensures ViewCurrent(g, r)
    ensures r.eye == c.eye
    ensures var turned := TransformDir(PitchRotation(g, c, deg), ViewDir(g, c));
            Valid(g) && turned != Zero ==> UnitAlong(Sub(r.center, r.eye), turned)
    ensures var turned := TransformDir(PitchRotation(g, c, deg), c.up);
            Valid(g) && turned != Zero ==> UnitAlong(r.up, turned)
  {
    var rot := PitchRotation(g, c, deg);
    var dir := g.normalize(TransformDir(rot, ViewDir(g, c)));
    var center := Add(c.eye, dir);
    TranslateFacts(c.eye, c.eye, dir);
    var up := g.normalize(TransformDir(rot, c.up));
    Camera(c.eye, center, up, g.lookAt(c.eye, center, up))
  }

  /** The rotation `yaw(deg)` applies: `deg` about the vertical axis. */
  function YawRotation(g: Glm, c: Camera, deg: real): Mat4 {
    g.rotate(DegToRad(deg), Vert(g, c))
  }

  /** `yaw(deg)`: the eye and `up` stay put; the look-at point is reset to one unit
      from the eye along the rotated view direction. */
  function Yaw(g: Glm, c: Camera, deg: real): (r: Camera)
    ensures ViewCurrent(g, r)
    ensures r.eye == c.eye
    ensures r.up == c.up
    ensures var turned := TransformDir(YawRotation(g, c, deg), ViewDir(g, c));
            Valid(g) && turned != Zero ==> UnitAlong(Sub(r.center, r.eye), turned)
  {
    var rot := YawRotation(g, c, deg);
    var dir := g.normalize(TransformDir(rot, ViewDir(g, c)));
    var center := Add(c.eye, dir);
    TranslateFacts(c.eye, c.eye, dir);
    Camera(c.eye, center, c.up, g.lookAt(c.eye, center, c.up))
  }

  /** The rotation `roll(deg)` applies: `deg` about the view direction. */
  function RollRotation(g: Glm, c: Camera, deg: real): Mat4 {
    g.rotate(DegToRad(deg), ViewDir(g, c))
  }

  /** `roll(deg)`: only `up` changes, to the renormalised rotation of the old `up`
      about the view direction. */
  function Roll(g: Glm, c: Camera, deg: real): (r: Camera)
    ensures ViewCurrent(g, r)
    ensures r.eye == c.eye && r.center == c.center
    ensures ViewDir(g, r) == ViewDir(g, c)
    ensures var turned := TransformDir(RollRotation(g, c, deg), c.up);
            Valid(g) && turned != Zero ==> UnitAlong(r.up, turned)
  {
    var up := g.normalize(TransformDir(RollRotation(g, c, deg), c.up));
    Camera(c.eye, c.center, up, g.lookAt(c.eye, c.center, up))
  }

  // ---------------------------------------------------------------------------
  // The six gestures as data

  /** One call of one of the six mutators, with its scalar argument. */
  datatype Command =
    | ZoomBy(dist: real)
    | StrafeHorizBy(dist: real)
    | StrafeVertBy(dist: real)
    | PitchBy(deg: real)
    | RollBy(deg: real)
    | YawBy(deg: real)

  /** Runs one mutator. */
  function Apply(g: Glm, c: Camera, cmd: Command): (r: Camera)
    ensures ViewCurrent(g, r)
  {
    match cmd
    case ZoomBy(d) => Zoom(g, c, d)
    case StrafeHorizBy(d) => StrafeHoriz(g, c, d)
    case StrafeVertBy(d) => StrafeVert(g, c, d)
    case PitchBy(d) => Pitch(g, c, d)
    case RollBy(d) => Roll(g, c, d)
    case YawBy(d) => Yaw(g, c, d)
  }

  /** Runs mutators one after another, first to last. */
  function ApplyAll(g: Glm, c: Camera, cmds: seq<Command>): Camera
    decreases |cmds|
  {
    if cmds == [] then c else ApplyAll(g, Apply(g, c, cmds[0]), cmds[1..])
  }

  /** The same gesture with its argument negated. */
  function Inverse(cmd: Command): Command {
    match cmd
    case ZoomBy(d) => ZoomBy(-d)
    case StrafeHorizBy(d) => StrafeHorizBy(-d)
    case StrafeVertBy(d) => StrafeVertBy(-d)
    case PitchBy(d) => PitchBy(-d)
    case RollBy(d) => RollBy(-d)
    case YawBy(d) => YawBy(-d)
  }

  predicate IsTranslation(cmd: Command) {
    cmd.ZoomBy? || cmd.StrafeHorizBy? || cmd.StrafeVertBy?
  }

  predicate IsRotation(cmd: Command) {
    cmd.PitchBy? || cmd.YawBy? || cmd.RollBy?
  }

  // ---------------------------------------------------------------------------
  // Properties across calls

  /** The cached view matrix is never stale: after any sequence of gestures on a
      constructed camera, `view_mat()` is the look-at matrix of the current
      `eye_pos()`, look-at point and `up`. */
  lemma {:induction false} ViewNeverStale(g: Glm, eye: Vec3, center: Vec3, up: Vec3, cmds: seq<Command>)
    ensures var c := ApplyAll(g, Make(g, eye, center, up), cmds);
            ViewMat(c) == g.lookAt(EyePos(c), c.center, c.up)
  {
    ViewCurrentPreserved(g, Make(g, eye, center, up), cmds);
  }

  lemma {:induction false} ViewCurrentPreserved(g: Glm, c: Camera, cmds: seq<Command>)
    requires ViewCurrent(g, c)
    ensures ViewCurrent(g, ApplyAll(g, c, cmds))
    decreases |cmds|
  {
    if cmds != [] {
      ViewCurrentPreserved(g, Apply(g, c, cmds[0]), cmds[1..]);
    }
  }

  /** Running no gesture leaves the camera as it is. */
  lemma ApplyAllEmpty(g: Glm, c: Camera)
    ensures ApplyAll(g, c, []) == c
  {
  }

  /** Running a single gesture through `ApplyAll` is applying it. */
  lemma ApplyAllOne(g: Glm, c: Camera, a: Command)
    ensures ApplyAll(g, c, [a]) == Apply(g, c, a)
  {
    assert [a][1..] == [];
  }

  /** Running two gestures through `ApplyAll` applies them in order. */
  lemma ApplyAllTwo(g: Glm, c: Camera, a: Command, b: Command)
    ensures ApplyAll(g, c, [a, b]) == Apply(g, Apply(g, c, a), b)
  {
    assert [a, b][1..] == [b];
    ApplyAllOne(g, Apply(g, c, a), b);
  }

  /** Running two sequences of gestures one after the other is running their concatenation. */
  lemma {:induction false} ApplyAllAppend(g: Glm, c: Camera, a: seq<Command>, b: seq<Command>)
    ensures ApplyAll(g, c, a + b) == ApplyAll(g, ApplyAll(g, c, a), b)
    decreases |a|
  {
    if a == [] {
      assert a + b == b;
    } else {
      assert (a + b)[0] == a[0];
      assert (a + b)[1..] == a[1..] + b;
      ApplyAllAppend(g, Apply(g, c, a[0]), a[1..], b);
    }
  }

  /** Translations never turn the camera: any run of zooms and strafes keeps
      `center - eye`, hence the view direction, and `up`. */
  lemma {:induction false} TranslationsKeepOrientation(g: Glm, c: Camera, cmds: seq<Command>)
    requires forall i :: 0 <= i < |cmds| ==> IsTranslation(cmds[i])
    ensures var r := ApplyAll(g, c, cmds);
            Sub(r.center, r.eye) == Sub(c.center, c.eye) && r.up == c.up && ViewDir(g, r) == ViewDir(g, c)
    decreases |cmds|
  {
    if cmds != [] {
      TranslationsKeepOrientation(g, Apply(g, c, cmds[0]), cmds[1..]);
    }
  }

  /** Rotations never move the camera: any run of pitches, yaws and rolls keeps the eye. */
  lemma {:induction false} RotationsKeepEye(g: Glm, c: Camera, cmds: seq<Command>)
    requires forall i :: 0 <= i < |cmds| ==> IsRotation(cmds[i])
    ensures ApplyAll(g, c, cmds).eye == c.eye
    decreases |cmds|
  {
    if cmds != [] {
      RotationsKeepEye(g, Apply(g, c, cmds[0]), cmds[1..]);
    }
  }

  /** Over the reals `zoom(-d)` exactly undoes `zoom(d)`. */
  lemma ZoomUndo(g: Glm, c: Camera, d: real)
    requires ViewCurrent(g, c)
    ensures Zoom(g, Zoom(g, c, d), -d) == c
  {
    var n := ViewDir(g, c);
    TranslateBack(c.eye, d, n);
    TranslateBack(c.center, d, n);
  }

  /** Over the reals `strafe_horiz(-d)` exactly undoes `strafe_horiz(d)`: the axis
      depends only on the preserved view direction and `up`. */
  lemma StrafeHorizUndo(g: Glm, c: Camera, d: real)
    requires ViewCurrent(g, c)
    ensures StrafeHoriz(g, StrafeHoriz(g, c, d), -d) == c
  {
    var h := Horiz(g, c);
    TranslateBack(c.eye, d, h);
    TranslateBack(c.center, d, h);
  }

  /** Over the reals `strafe_vert(-d)` exactly undoes `strafe_vert(d)`. */
  lemma StrafeVertUndo(g: Glm, c: Camera, d: real)
    requires ViewCurrent(g, c)
    ensures StrafeVert(g, StrafeVert(g, c, d), -d) == c
  {
    var v := Vert(g, c);
    TranslateBack(c.eye, d, v);
    TranslateBack(c.center, d, v);
  }

  /** Every translation gesture is undone by the same gesture with the opposite argument. */
  lemma TranslationUndo(g: Glm, c: Camera, cmd: Command)
    requires ViewCurrent(g, c)
    requires IsTranslation(cmd)
    ensures Apply(g, Apply(g, c, cmd), Inverse(cmd)) == c
  {
    match cmd
    case ZoomBy(d) => ZoomUndo(g, c, d);
    case StrafeHorizBy(d) => StrafeHorizUndo(g, c, d);
    case StrafeVertBy(d) => StrafeVertUndo(g, c, d);
  }

  /** `roll(-d)` after `roll(d)` rotates by the opposite angle about the same axis,
      since roll keeps the view direction and `deg_to_rad` is odd. */
  lemma RollBackUsesOppositeAngle(g: Glm, c: Camera, deg: real)
    ensures RollRotation(g, Roll(g, c, deg), -deg) == g.rotate(-DegToRad(deg), ViewDir(g, c))
  {
    DegToRadOdd(deg);
  }

  // ---------------------------------------------------------------------------
  // The camera the program starts with

  /** The camera the program creates: eye at (0,0,5), looking at the origin, with up (0,1,0). */
  function StartCamera(g: Glm): (c: Camera)
    ensures ViewCurrent(g, c)
  {
    Make(g, Vec3(0.0, 0.0, 5.0), Zero, Vec3(0.0, 1.0, 0.0))
  }

  /** A real whose square is one and which is negative is minus one. */
  lemma NegativeUnitRoot(t: real)
    requires t * t == 1.0
    requires t < 0.0
    ensures t == -1.0
  {
    assert (t + 1.0) * (t - 1.0) == 0.0;
  }

  /** Looking from (0,0,5) at the origin, the view direction is (0,0,-1). */
  lemma StartViewDir(g: Glm)
    requires Valid(g)
    ensures ViewDir(g, StartCamera(g)) == Vec3(0.0, 0.0, -1.0)
  {
    var v := Vec3(0.0, 0.0, -5.0);
    var n := g.normalize(v);
    assert v != Zero;
    NormalizeIsUnit(g, v);
    assert UnitAlong(n, v);
    assert Cross(n, v) == Zero;
    assert n.x == 0.0 && n.y == 0.0;
    assert -5.0 * n.z > 0.0;
    assert n.z * n.z == 1.0;
    NegativeUnitRoot(n.z);
  }

  /** From the starting camera `zoom(1)` moves the eye to (0,0,4) and the look-at
      point to (0,0,-1). */
  lemma StartZoom(g: Glm)
    requires Valid(g)
    ensures var c := Zoom(g, StartCamera(g), 1.0);
            c.eye == Vec3(0.0, 0.0, 4.0) && c.center == Vec3(0.0, 0.0, -1.0)
  {
    StartViewDir(g);
    ZoomAlongMinusZ(g, StartCamera(g));
  }

  lemma ZoomAlongMinusZ(g: Glm, c: Camera)
    requires c.eye == Vec3(0.0, 0.0, 5.0) && c.center == Zero
    requires ViewDir(g, c) == Vec3(0.0, 0.0, -1.0)
    ensures var r := Zoom(g, c, 1.0);
            r.eye == Vec3(0.0, 0.0, 4.0) && r.center == Vec3(0.0, 0.0, -1.0)
  {
    var r := Zoom(g, c, 1.0);
    assert Sub(r.eye, c.eye) == Vec3(0.0, 0.0, -1.0);
    assert Sub(r.center, c.center) == Vec3(0.0, 0.0, -1.0);
  }

  /** From the starting camera `strafe_horiz(1)` moves both points by
      cross((0,0,-1), (0,1,0)) = (1,0,0): the eye goes to (1,0,5). */
  lemma StartStrafeHoriz(g: Glm)
    requires Valid(g)
    ensures var c := StrafeHoriz(g, StartCamera(g), 1.0);
            c.eye == Vec3(1.0, 0.0, 5.0) && c.center == Vec3(1.0, 0.0, 0.0)
  {
    StartViewDir(g);
    StrafeAlongPlusX(g, StartCamera(g));
  }

  lemma StrafeAlongPlusX(g: Glm, c: Camera)
    requires c.eye == Vec3(0.0, 0.0, 5.0) && c.center == Zero && c.up == Vec3(0.0, 1.0, 0.0)
    requires ViewDir(g, c) == Vec3(0.0, 0.0, -1.0)
    ensures var r := StrafeHoriz(g, c, 1.0);
            r.eye == Vec3(1.0, 0.0, 5.0) && r.center == Vec3(1.0, 0.0, 0.0)
  {
    StrafeRightByOne(g, c);
  }

  /** Looking down -z with up +y, `strafe_horiz(1)` moves both points by +x. */
  lemma StrafeRightByOne(g: Glm, c: Camera)
    requires c.up == Vec3(0.0, 1.0, 0.0)
    requires ViewDir(g, c) == Vec3(0.0, 0.0, -1.0)
    ensures var r := StrafeHoriz(g, c, 1.0);
            Sub(r.eye, c.eye) == Vec3(1.0, 0.0, 0.0) && Sub(r.center, c.center) == Vec3(1.0, 0.0, 0.0)
  {
    HorizLooksRight(g, c);
    StrafeAlongUnitAxis(g, c);
  }

  lemma HorizLooksRight(g: Glm, c: Camera)
    requires c.up == Vec3(0.0, 1.0, 0.0)
    requires ViewDir(g, c) == Vec3(0.0, 0.0, -1.0)
    ensures Horiz(g, c) == Vec3(1.0, 0.0, 0.0)
  {
    assert Cross(ViewDir(g, c), c.up) == Vec3(1.0, 0.0, 0.0);
  }

  lemma StrafeAlongUnitAxis(g: Glm, c: Camera)
    requires Horiz(g, c) == Vec3(1.0, 0.0, 0.0)
    ensures var r := StrafeHoriz(g, c, 1.0);
            Sub(r.eye, c.eye) == Vec3(1.0, 0.0, 0.0) && Sub(r.center, c.center) == Vec3(1.0, 0.0, 0.0)
  {
  }
}

=== FILE: events.dfy ===
/**
  The interactive part of the viewer's main loop: `move_camera`, which maps one
  input event to camera gestures, and the per-frame polling that decides
  whether the camera's view matrix and eye position must be uploaded again.

  SDL events are reduced to the three kinds the loop distinguishes; the left
  mouse button state, which the loop queries from SDL when it looks at a
  motion event, travels with each polled event. The GL upload is modelled as
  the snapshot of the camera it writes.
 */
module EventLoop {
  import opened Vectors
  import opened Glm
  import opened Util
  import opened FreeFlyCamera

  // SDL key codes: SDL2 uses the character code for printable keys.
  const SdlkEscape: int := 27
  const SdlkA: int := 97
  const SdlkD: int := 100
  const SdlkE: int := 101
  const SdlkF: int := 102
  const SdlkQ: int := 113
  const SdlkR: int := 114
  const SdlkS: int := 115
  const SdlkW: int := 119
  /** Not bound to anything. */
  const SdlkX: int := 120

  /** Distance of one strafe or zoom key press. */
  const MoveStep: real := 0.3

  /** Degrees of one roll key press. */
  const RollStep: real := 5.0

  /** Mouse motion is divided by this to give degrees. */
  const MouseDivisor: real := 10.0

  /** The events the loop tells apart; every other SDL event is `Other`. */
  datatype Event =
    | Quit
    | KeyDown(sym: int)
    | MouseMotion(xrel: int, yrel: int)
    | Other

  /** The key bindings as a table: each bound key is one gesture. */
  const KeyBindings: map<int, Command> := map[
    SdlkD := StrafeHorizBy(MoveStep),
    SdlkA := StrafeHorizBy(-MoveStep),
    SdlkW := ZoomBy(MoveStep),
    SdlkS := ZoomBy(-MoveStep),
    SdlkQ := StrafeVertBy(MoveStep),
    SdlkE := StrafeVertBy(-MoveStep),
    SdlkR := RollBy(RollStep),
    SdlkF := RollBy(-RollStep)
  ]

  /** The gestures an event asks for: the bound gesture of a key, pitch then yaw for
      mouse motion, nothing otherwise. */
  function Commands(e: Event): seq<Command> {
    match e
    case KeyDown(sym) => if sym in KeyBindings then [KeyBindings[sym]] else []
    case MouseMotion(xrel, yrel) =>
      [PitchBy(-(yrel as real) / MouseDivisor), YawBy(-(xrel as real) / MouseDivisor)]
    case _ => []
  }

  datatype MoveResult = MoveResult(camera: Camera, moved: bool)

  /** `move_camera`: applies the gestures of a key press or a mouse motion and
      reports whether it touched the camera. It agrees with the binding table:
      the camera is changed by exactly the event's gestures, in order, and the
      result is true exactly when there are any. */
  function MoveCamera(g: Glm, c: Camera, e: Event): (r: MoveResult)
    ensures r.moved <==> Commands(e) != []
    ensures !r.moved ==> r.camera == c
  {
    match e
    case KeyDown(sym) =>
      if sym == SdlkD then MoveResult(StrafeHoriz(g, c, MoveStep), true)
      else if sym == SdlkA then MoveResult(StrafeHoriz(g, c, -MoveStep), true)
      else if sym == SdlkW then MoveResult(Zoom(g, c, MoveStep), true)
      else if sym == SdlkS then MoveResult(Zoom(g, c, -MoveStep), true)
      else if sym == SdlkQ then MoveResult(StrafeVert(g, c, MoveStep), true)
      else if sym == SdlkE then MoveResult(StrafeVert(g, c, -MoveStep), true)
      else if sym == SdlkR then MoveResult(Roll(g, c, RollStep), true)
      else if sym == SdlkF then MoveResult(Roll(g, c, -RollStep), true)
      else MoveResult(c, false)
    case MouseMotion(xrel, yrel) =>
      var pitched := Pitch(g, c, -(yrel as real) / MouseDivisor);
      MoveResult(Yaw(g, pitched, -(xrel as real) / MouseDivisor), true)
    case _ => MoveResult(c, false)
  }

  /** `move_camera` agrees with the binding table: the camera is changed by exactly
      the event's gestures, in order. */
  lemma MoveCameraFollowsBindings(g: Glm, c: Camera, e: Event)
    ensures MoveCamera(g, c, e).camera == ApplyAll(g, c, Commands(e))
  {
    match e
    case KeyDown(sym) =>
      if sym in KeyBindings {
        ApplyAllOne(g, c, KeyBindings[sym]);
        BoundKeyFollowsBinding(g, c, sym);
      } else {
        UnboundKeyLeavesCamera(g, c, sym);
      }
    case MouseMotion(xrel, yrel) =>
      var pitch := PitchBy(-(yrel as real) / MouseDivisor);
      var yaw := YawBy(-(xrel as real) / MouseDivisor);
      assert Commands(e) == [pitch, yaw];
      ApplyAllTwo(g, c, pitch, yaw);
    case Quit =>
      assert Commands(e) == [];
      ApplyAllEmpty(g, c);
    case Other =>
      assert Commands(e) == [];
      ApplyAllEmpty(g, c);
  }

  lemma UnboundKeyLeavesCamera(g: Glm, c: Camera, sym: int)
    requires sym !in KeyBindings
    ensures MoveCamera(g, c, KeyDown(sym)).camera == ApplyAll(g, c, Commands(KeyDown(sym)))
  {
    assert Commands(KeyDown(sym)) == [];
    ApplyAllEmpty(g, c);
  }

  lemma BoundKeyFollowsBinding(g: Glm, c: Camera, sym: int)
    requires sym in KeyBindings
    ensures MoveCamera(g, c, KeyDown(sym)).camera == Apply(g, c, KeyBindings[sym])
  {
    if sym == SdlkD { assert KeyBindings[sym] == StrafeHorizBy(MoveStep); }
    else if sym == SdlkA { assert KeyBindings[sym] == StrafeHorizBy(-MoveStep); }
    else if sym == SdlkW { assert KeyBindings[sym] == ZoomBy(MoveStep); }
    else if sym == SdlkS { assert KeyBindings[sym] == ZoomBy(-MoveStep); }
    else if sym == SdlkQ { assert KeyBindings[sym] == StrafeVertBy(MoveStep); }
    else if sym == SdlkE { assert KeyBindings[sym] == StrafeVertBy(-MoveStep); }
    else if sym == SdlkR { assert KeyBindings[sym] == RollBy(RollStep); }
    else { assert KeyBindings[sym] == RollBy(-RollStep); }
  }

  /** What kind of change each event makes: mouse motion never moves the eye, the
      roll keys change only `up`, and the other bound keys never turn the camera. */
  lemma EventEffects(g: Glm, c: Camera, e: Event)
    ensures e.MouseMotion? ==> MoveCamera(g, c, e).camera.eye == c.eye
    ensures e.KeyDown? && e.sym in {SdlkR, SdlkF} ==>
              var r := MoveCamera(g, c, e).camera;
              r.eye == c.eye && r.center == c.center
    ensures e.KeyDown? && e.sym in KeyBindings && e.sym !in {SdlkR, SdlkF} ==>
              var r := MoveCamera(g, c, e).camera;
              r.up == c.up && Sub(r.center, r.eye) == Sub(c.center, c.eye)
  {
    var cmds := Commands(e);
    if e.MouseMotion? {
      RotationsKeepEye(g, c, cmds);
    } else if e.KeyDown? && e.sym in KeyBindings && e.sym !in {SdlkR, SdlkF} {
      TranslationsKeepOrientation(g, c, cmds);
    }
  }

  /** The pairs of keys that move the camera in opposite directions along the same axis. */
  const OppositeMoveKeys: set<(int, int)> := {
    (SdlkD, SdlkA), (SdlkA, SdlkD),
    (SdlkW, SdlkS), (SdlkS, SdlkW),
    (SdlkQ, SdlkE), (SdlkE, SdlkQ)
  }

  /** Pressing a movement key and then its opposite puts the camera back exactly
      (over the reals). */
  lemma OppositeKeysCancel(g: Glm, c: Camera, k1: int, k2: int)
    requires ViewCurrent(g, c)
    requires (k1, k2) in OppositeMoveKeys
    ensures MoveCamera(g, MoveCamera(g, c, KeyDown(k1)).camera, KeyDown(k2)).camera == c
  {
    var cmd := KeyBindings[k1];
    assert KeyBindings[k2] == Inverse(cmd);
    TranslationUndo(g, c, cmd);
  }

  /** The two roll keys turn by opposite angles: after `r`, the `f` key rotates back
      by the opposite angle about the same axis. */
  lemma RollKeysOpposite(g: Glm, c: Camera)
    ensures var rolled := MoveCamera(g, c, KeyDown(SdlkR)).camera;
            RollRotation(g, rolled, KeyBindings[SdlkF].deg)
              == g.rotate(-DegToRad(KeyBindings[SdlkR].deg), ViewDir(g, c))
  {
    RollBackUsesOppositeAngle(g, c, RollStep);
  }

  // ---------------------------------------------------------------------------
  // Polling

  /** An event as the loop sees it, with whether the left mouse button was held
      when the loop looked at it. */
  datatype Polled = Polled(event: Event, leftButtonHeld: bool)

  /** The window was closed or Escape was pressed. */
  predicate IsQuit(e: Event) {
    e.Quit? || (e.KeyDown? && e.sym == SdlkEscape)
  }

  /** The events passed on to `move_camera`: key presses other than Escape, and
      mouse motion while the left button is held. */
  predicate Dispatched(p: Polled) {
    !IsQuit(p.event) && (p.event.KeyDown? || (p.event.MouseMotion? && p.leftButtonHeld))
  }

  /** How a dispatched event's result is combined with the pending-upload flag:
      the program overwrites it; accumulating is what the flag is for. */
  datatype FlagRule = Overwrite | Accumulate

  function NextFlag(rule: FlagRule, pending: bool, moved: bool): bool {
    match rule
    case Overwrite => moved
    case Accumulate => pending || moved
  }

  /** The loop's state between events: the camera, `update_view` and `quit`. */
  datatype LoopState = LoopState(camera: Camera, updateView: bool, quit: bool)

  /** One iteration of the inner polling loop. */
  function HandleEvent(g: Glm, rule: FlagRule, s: LoopState, p: Polled): (r: LoopState)
    ensures r.quit == (s.quit || IsQuit(p.event))
    ensures !Dispatched(p) ==> r.camera == s.camera && r.updateView == s.updateView
    ensures Dispatched(p) ==> r.camera == ApplyAll(g, s.camera, Commands(p.event))
    ensures Dispatched(p) ==> r.updateView == NextFlag(rule, s.updateView, Commands(p.event) != [])
  {
    if IsQuit(p.event) then
      s.(quit := true)
    else if Dispatched(p) then
      var m := MoveCamera(g, s.camera, p.event);
      MoveCameraFollowsBindings(g, s.camera, p.event);
      s.(camera := m.camera, updateView := NextFlag(rule, s.updateView, m.moved))
    else
      s
  }

  /** The inner `while (SDL_PollEvent(...))` loop over one frame's events. */
  function PollEvents(g: Glm, rule: FlagRule, s: LoopState, ps: seq<Polled>): LoopState
    decreases |ps|
  {
    if ps == [] then s else HandleEvent(g, rule, PollEvents(g, rule, s, ps[..|ps| - 1]), ps[|ps| - 1])
  }

  /** The gestures of the dispatched events of a batch, in order. */
  function DispatchedCommands(ps: seq<Polled>): seq<Command>
    decreases |ps|
  {
    if ps == [] then []
    else
      var last := ps[|ps| - 1];
      DispatchedCommands(ps[..|ps| - 1]) + (if Dispatched(last) then Commands(last.event) else [])
  }

  /** The camera sees exactly the dispatched events, in order; quit events and mouse
      motion without the left button have no effect on it. */
  lemma {:induction false} CameraSeesDispatchedEvents(g: Glm, rule: FlagRule, s: LoopState, ps: seq<Polled>)
    ensures PollEvents(g, rule, s, ps).camera == ApplyAll(g, s.camera, DispatchedCommands(ps))
    decreases |ps|
  {
    if ps != [] {
      var init := ps[..|ps| - 1];
      var last := ps[|ps| - 1];
      CameraSeesDispatchedEvents(g, rule, s, init);
      var tail := if Dispatched(last) then Commands(last.event) else [];
      ApplyAllAppend(g, s.camera, DispatchedCommands(init), tail);
    }
  }

  /** `quit` is latched: it is set after a batch exactly when it was set before or
      the batch holds a quit event. */
  lemma {:induction false} QuitIsLatched(g: Glm, rule: FlagRule, s: LoopState, ps: seq<Polled>)
    ensures PollEvents(g, rule, s, ps).quit <==>
              s.quit || exists i :: 0 <= i < |ps| && IsQuit(ps[i].event)
    decreases |ps|
  {
    if ps != [] {
      var init := ps[..|ps| - 1];
      QuitIsLatched(g, rule, s, init);
      if exists i :: 0 <= i < |init| && IsQuit(init[i].event) {
        var i :| 0 <= i < |init| && IsQuit(init[i].event);
        assert ps[i] == init[i];
      }
      if exists i :: 0 <= i < |ps| && IsQuit(ps[i].event) {
        var i :| 0 <= i < |ps| && IsQuit(ps[i].event);
        if i < |init| {
          assert init[i] == ps[i];
        }
      }
    }
  }

  /** As the program is written, the flag after a batch is decided by the last
      dispatched event alone: it says whether that event moved the camera,
      whatever the events before it did. */
  lemma {:induction false} OverwriteKeepsOnlyLast(g: Glm, s: LoopState, ps: seq<Polled>, i: int)
    requires 0 <= i < |ps| && Dispatched(ps[i])
    requires forall j :: i < j < |ps| ==> !Dispatched(ps[j])
    ensures PollEvents(g, Overwrite, s, ps).updateView <==> Commands(ps[i].event) != []
    decreases |ps|
  {
    if i < |ps| - 1 {
      var init := ps[..|ps| - 1];
      assert init[i] == ps[i];
      forall j | i < j < |init|
        ensures !Dispatched(init[j])
      {
        assert init[j] == ps[j];
      }
      OverwriteKeepsOnlyLast(g, s, init, i);
    }
  }

  /** With an accumulating flag, it is set after a batch exactly when it was set
      before or some dispatched event of the batch moved the camera. */
  lemma {:induction false} AccumulateRemembersAnyMove(g: Glm, s: LoopState, ps: seq<Polled>)
    ensures PollEvents(g, Accumulate, s, ps).updateView <==>
              s.updateView || exists i :: 0 <= i < |ps| && Dispatched(ps[i]) && Commands(ps[i].event) != []
    decreases |ps|
  {
    if ps != [] {
      var init := ps[..|ps| - 1];
      AccumulateRemembersAnyMove(g, s, init);
      if exists i :: 0 <= i < |init| && Dispatched(init[i]) && Commands(init[i].event) != [] {
        var i :| 0 <= i < |init| && Dispatched(init[i]) && Commands(init[i].event) != [];
        assert ps[i] == init[i];
      }
      if exists i :: 0 <= i < |ps| && Dispatched(ps[i]) && Commands(ps[i].event) != [] {
        var i :| 0 <= i < |ps| && Dispatched(ps[i]) && Commands(ps[i].event) != [];
        if i < |init| {
          assert init[i] == ps[i];
        }
      }
    }
  }

  /** With an accumulating flag, a batch that leaves the flag clear has not moved
      the camera. */
  lemma {:induction false} AccumulateClearMeansUnmoved(g: Glm, s: LoopState, ps: seq<Polled>)
    requires !s.updateView
    ensures !PollEvents(g, Accumulate, s, ps).updateView ==> PollEvents(g, Accumulate, s, ps).camera == s.camera
    decreases |ps|
  {
    if ps != [] {
      AccumulateClearMeansUnmoved(g, s, ps[..|ps| - 1]);
    }
  }

  // ---------------------------------------------------------------------------
  // Frames and the uniform upload

  /** What the viewing uniform block holds for the shaders: the view matrix and the
      eye position. */
  datatype Uniforms = Uniforms(view: Mat4, eye: Vec3)

  function UniformsOf(c: Camera): Uniforms {
    Uniforms(ViewMat(c), EyePos(c))
  }

  datatype RunState = RunState(loop: LoopState, uniforms: Uniforms)

  /** The shaders see the current camera. */
  predicate UploadCurrent(s: RunState) {
    s.uniforms == UniformsOf(s.loop.camera)
  }

  /** The state before the first frame: the starting camera, uploaded once, with
      both flags clear. */
  function Start(g: Glm): (s: RunState)
    ensures s.loop.camera == StartCamera(g)
    ensures !s.loop.updateView && !s.loop.quit
    ensures UploadCurrent(s)
  {
    var c := StartCamera(g);
    RunState(LoopState(c, false, false), UniformsOf(c))
  }

  /** One frame: poll every pending event, then upload the camera if the flag is
      set, clearing the flag. */
  function Frame(g: Glm, rule: FlagRule, s: RunState, ps: seq<Polled>): (r: RunState)
    ensures !r.loop.updateView
    ensures var polled := PollEvents(g, rule, s.loop, ps);
            r.loop.camera == polled.camera && r.loop.quit == polled.quit
    ensures PollEvents(g, rule, s.loop, ps).updateView ==> UploadCurrent(r)
    ensures !PollEvents(g, rule, s.loop, ps).updateView ==> r.uniforms == s.uniforms
  {
    var polled := PollEvents(g, rule, s.loop, ps);
    if polled.updateView then
      RunState(polled.(updateView := false), UniformsOf(polled.camera))
    else
      RunState(polled, s.uniforms)
  }

  /** Some frame of the sequence holds a quit or Escape event. */
  predicate QuitIn(frames: seq<seq<Polled>>) {
    exists i, j :: 0 <= i < |frames| && 0 <= j < |frames[i]| && IsQuit(frames[i][j].event)
  }

  /** The outer `while (!quit)` loop over the batches of successive frames. It
      stops only when the frames run out or `quit` is set: a loop that has quit
      stays as it is, no frame runs after the one that sets `quit`, and the
      loop ends with `quit` set exactly when some frame held a quit or Escape
      event. */
  function Run(g: Glm, rule: FlagRule, s: RunState, frames: seq<seq<Polled>>): (r: RunState)
    ensures s.loop.quit ==> r == s
    ensures r.loop.quit <==> s.loop.quit || QuitIn(frames)
    ensures !s.loop.quit && frames != [] && Frame(g, rule, s, frames[0]).loop.quit ==>
              r == Frame(g, rule, s, frames[0])
    ensures !s.loop.quit && !QuitIn(frames) ==>
              r.loop.camera == ApplyAll(g, s.loop.camera, DispatchedCommands(Flatten(frames)))
    decreases |frames|
  {
    if frames == [] || s.loop.quit then s
    else
      var next := Frame(g, rule, s, frames[0]);
      QuitIsLatched(g, rule, s.loop, frames[0]);
      QuitInFirst(frames);
      CameraSeesDispatchedEvents(g, rule, s.loop, frames[0]);
      DispatchedCommandsAppend(frames[0], Flatten(frames[1..]));
      ApplyAllAppend(g, s.loop.camera, DispatchedCommands(frames[0]), DispatchedCommands(Flatten(frames[1..])));
      Run(g, rule, next, frames[1..])
  }

  /** The events of successive frames, one after the other. */
  function Flatten(frames: seq<seq<Polled>>): seq<Polled>
    decreases |frames|
  {
    if frames == [] then [] else frames[0] + Flatten(frames[1..])
  }

  /** The dispatched gestures of two batches in a row are those of the first, then
      those of the second. */
  lemma {:induction false} DispatchedCommandsAppend(a: seq<Polled>, b: seq<Polled>)
    ensures DispatchedCommands(a + b) == DispatchedCommands(a) + DispatchedCommands(b)
    decreases |b|
  {
    if b == [] {
      assert a + b == a;
    } else {
      var init := b[..|b| - 1];
      assert (a + b)[..|a + b| - 1] == a + init;
      assert (a + b)[|a + b| - 1] == b[|b| - 1];
      DispatchedCommandsAppend(a, init);
    }
  }

  /** A quit event is in the first frame or in one of the rest. */
  lemma QuitInFirst(frames: seq<seq<Polled>>)
    requires frames != []
    ensures QuitIn(frames) <==>
              (exists j :: 0 <= j < |frames[0]| && IsQuit(frames[0][j].event)) || QuitIn(frames[1..])
  {
    if QuitIn(frames) {
      var i, j :| 0 <= i < |frames| && 0 <= j < |frames[i]| && IsQuit(frames[i][j].event);
      if i > 0 {
        assert frames[1..][i - 1] == frames[i];
      }
    }
    if QuitIn(frames[1..]) {
      var i, j :| 0 <= i < |frames[1..]| && 0 <= j < |frames[1..][i]| && IsQuit(frames[1..][i][j].event);
      assert frames[i + 1] == frames[1..][i];
    }
  }

  /** The program as written: a key press that moves the camera followed, in the
      same frame, by a key that is not bound leaves the shaders with the old eye
      position although the camera has moved. */
  lemma OverwriteLosesMove(g: Glm)
    requires Valid(g)
    ensures var r := Frame(g, Overwrite, Start(g), [Polled(KeyDown(SdlkW), false), Polled(KeyDown(SdlkX), false)]);
            r.uniforms.eye == Vec3(0.0, 0.0, 5.0) && r.loop.camera.eye == Vec3(0.0, 0.0, 4.7)
            && !UploadCurrent(r)
  {
    StartViewDir(g);
    OverwriteLosesMoveAt(g, Start(g));
  }

  /** The same frame from any uploaded camera at (0,0,5) looking down -z. */
  lemma OverwriteLosesMoveAt(g: Glm, s: RunState)
    requires UploadCurrent(s)
    requires s.loop.camera.eye == Vec3(0.0, 0.0, 5.0)
    requires ViewDir(g, s.loop.camera) == Vec3(0.0, 0.0, -1.0)
    ensures var r := Frame(g, Overwrite, s, [Polled(KeyDown(SdlkW), false), Polled(KeyDown(SdlkX), false)]);
            r.uniforms.eye == Vec3(0.0, 0.0, 5.0) && r.loop.camera.eye == Vec3(0.0, 0.0, 4.7)
            && !UploadCurrent(r)
  {
    var ps := [Polled(KeyDown(SdlkW), false), Polled(KeyDown(SdlkX), false)];
    var polled := PollEvents(g, Overwrite, s.loop, ps);
    assert polled.camera.eye == Vec3(0.0, 0.0, 4.7) && !polled.updateView by {
      ZoomThenUnboundKey(g, s.loop);
      ZoomStartByStep(g, s.loop.camera);
    }
    var r := Frame(g, Overwrite, s, ps);
    assert r.uniforms == s.uniforms && r.loop.camera == polled.camera;
  }

  /** A zoom key followed by an unbound key: the camera zoomed, the flag is clear. */
  lemma ZoomThenUnboundKey(g: Glm, s: LoopState)
    ensures var r := PollEvents(g, Overwrite, s, [Polled(KeyDown(SdlkW), false), Polled(KeyDown(SdlkX), false)]);
            r.camera == Zoom(g, s.camera, MoveStep) && !r.updateView
  {
    var w := Polled(KeyDown(SdlkW), false);
    var x := Polled(KeyDown(SdlkX), false);
    PollTwo(g, Overwrite, s, w, x);
    var afterW := HandleEvent(g, Overwrite, s, w);
    assert afterW.camera == Zoom(g, s.camera, MoveStep);
    var afterX := HandleEvent(g, Overwrite, afterW, x);
    assert afterX.camera == afterW.camera && !afterX.updateView;
  }

  /** A batch of two events is handled one after the other. */
  lemma PollTwo(g: Glm, rule: FlagRule, s: LoopState, p: Polled, q: Polled)
    ensures PollEvents(g, rule, s, [p, q]) == HandleEvent(g, rule, HandleEvent(g, rule, s, p), q)
  {
    assert [p, q][..1] == [p];
    assert [p][..0] == [];
    assert PollEvents(g, rule, s, [p]) == HandleEvent(g, rule, PollEvents(g, rule, s, []), p);
  }

  lemma ZoomStartByStep(g: Glm, c: Camera)
    requires c.eye == Vec3(0.0, 0.0, 5.0)
    requires ViewDir(g, c) == Vec3(0.0, 0.0, -1.0)
    ensures Zoom(g, c, MoveStep).eye == Vec3(0.0, 0.0, 4.7)
  {
    var r := Zoom(g, c, MoveStep);
    assert Sub(r.eye, c.eye) == Vec3(0.0, 0.0, -0.3) by {
      assert Scale(MoveStep, Vec3(0.0, 0.0, -1.0)) == Vec3(0.0, 0.0, -0.3);
    }
  }

  /** With an accumulating flag every frame ends with the shaders seeing the
      current camera. */
  lemma AccumulateFrameKeepsUploadCurrent(g: Glm, s: RunState, ps: seq<Polled>)
    requires UploadCurrent(s) && !s.loop.updateView
    ensures UploadCurrent(Frame(g, Accumulate, s, ps))
  {
    AccumulateClearMeansUnmoved(g, s.loop, ps);
  }

  /** With an accumulating flag the shaders see the current camera after any number
      of frames. */
  lemma {:induction false} AccumulateRunKeepsUploadCurrent(g: Glm, frames: seq<seq<Polled>>)
    ensures UploadCurrent(Run(g, Accumulate, Start(g), frames))
  {
    RunKeepsUploadCurrent(g, Start(g), frames);
  }

  lemma {:induction false} RunKeepsUploadCurrent(g: Glm, s: RunState, frames: seq<seq<Polled>>)
    requires UploadCurrent(s) && !s.loop.updateView
    ensures UploadCurrent(Run(g, Accumulate, s, frames))
    decreases |frames|
  {
    if frames != [] && !s.loop.quit {
      AccumulateFrameKeepsUploadCurrent(g, s, frames[0]);
      RunKeepsUploadCurrent(g, Frame(g, Accumulate, s, frames[0]), frames[1..]);
    }
  }
}

=== FILE: glm.dfy ===
/**
  The three glm library routines the camera calls and whose source is not part
  of this model: `glm::normalize`, `glm::rotate` and `glm::lookAt`. They are
  carried as function values in a `Glm` record that every camera operation
  takes as a parameter, so nothing is assumed about them beyond what a
  caller chooses to require.

  The only property assumed, and only where a lemma says `Valid(g)`, is what
  `normalize` means: for a nonzero `v` it returns a unit vector pointing the
  same way as `v`. Rotation and the look-at matrix stay uninterpreted (their
  entries involve sine and cosine).
 */
module Glm {
  import opened Vectors

  datatype Glm = Glm(
    normalize: Vec3 -> Vec3,
    rotate: (real, Vec3) -> Mat4,
    lookAt: (Vec3, Vec3, Vec3) -> Mat4)

  /** `n` is the unit vector in the direction of `v`: unit length, parallel to `v`
      (zero cross product) and on the same side (positive dot product). */
  predicate UnitAlong(n: Vec3, v: Vec3) {
    Norm2(n) == 1.0 && Cross(n, v) == Zero && Dot(n, v) > 0.0
  }

  /** `normalize` behaves as its mathematical definition on every nonzero input.
      Its value on the zero vector (NaN in floating point) is left unconstrained. */
  ghost predicate Valid(g: Glm) {
    forall v :: v != Zero ==> UnitAlong(g.normalize(v), v)
  }

  /** A valid `normalize` returns a unit vector for every nonzero input. */
  lemma NormalizeIsUnit(g: Glm, v: Vec3)
    requires Valid(g)
    requires v != Zero
    ensures Norm2(g.normalize(v)) == 1.0
    ensures g.normalize(v) != Zero
  {
    assert UnitAlong(g.normalize(v), v);
  }
}

=== FILE: util.dfy ===
/**
  The two pure helpers of the `util` namespace that the rest of the program
  leans on: the degree-to-radian conversion used by the camera's rotations,
  and the derivation of the resource directory from the executable's
  directory (with its process-wide cache made an explicit value).
 */
module Util {

  /** The conversion factor the program uses: the literal 0.01745, which is close
      to but not equal to pi/180 (0.0174532925...). */
  const DegToRadFactor: real := 0.01745

  /** `deg_to_rad`: a linear scale by `DegToRadFactor`. The sign of the angle is kept
      and zero stays zero. */
  function DegToRad(deg: real): (rad: real)
    ensures deg == 0.0 ==> rad == 0.0
    ensures deg > 0.0 ==> rad > 0.0
    ensures deg < 0.0 ==> rad < 0.0
  {
    deg * DegToRadFactor
  }

  /** Opposite angles in degrees give opposite angles in radians. */
  lemma DegToRadOdd(deg: real)
    ensures DegToRad(-deg) == -DegToRad(deg)
  {
  }

  /** The conversion is additive. */
  lemma DegToRadAdditive(a: real, b: real)
    ensures DegToRad(a + b) == DegToRad(a) + DegToRad(b)
  {
  }

  /** The conversion is strictly increasing. */
  lemma DegToRadStrictlyIncreasing(a: real, b: real)
    requires a < b
    ensures DegToRad(a) < DegToRad(b)
  {
  }

  /** Half a turn comes out as 3.141 radians, below pi (which exceeds 3.1415):
      the factor is a truncation of pi/180, not pi/180 itself. */
  lemma DegToRadHalfTurn()
    ensures DegToRad(180.0) == 3.141
    ensures DegToRad(180.0) < 3.1415
  {
  }

  // ---------------------------------------------------------------------------
  // Resource path derivation

  /** `size_t` is modelled as 64 bits wide: arithmetic on it wraps modulo 2^64. */
  const SizeTModulus: nat := 0x1_0000_0000_0000_0000

  /** `std::string::npos`, the largest `size_t`. */
  const NPos: nat := SizeTModulus - 1

  /** The characters `find_last_of("bin")` looks for: any one of them, not the word. */
  const BinChars: set<char> := {'b', 'i', 'n'}

  /** The result of a `find_last_of` search. */
  datatype Found = NotFound | FoundAt(index: nat)

  /** `s.find_last_of(chars)`: the position of the last character of `s` that is in `chars`. */
  function FindLastOf(s: string, chars: set<char>): (r: Found)
    ensures r.FoundAt? ==> r.index < |s| && s[r.index] in chars
    ensures r.FoundAt? ==> forall j :: r.index < j < |s| ==> s[j] !in chars
    ensures r.NotFound? <==> forall j :: 0 <= j < |s| ==> s[j] !in chars
    decreases |s|
  {
    if |s| == 0 then NotFound
    else if s[|s| - 1] in chars then FoundAt(|s| - 1)
    else FindLastOf(s[..|s| - 1], chars)
  }

  /** The `size_t` value `find_last_of` returns: the index, or `npos` when nothing matched. */
  function AsSizeT(f: Found): nat {
    match f
    case NotFound => NPos
    case FoundAt(i) => i
  }

  /** `find_last_of("bin") - 2` evaluated in `size_t`, so that 0, 1 and `npos` wrap around. */
  function ResCut(base: string): (pos: nat)
    ensures pos < SizeTModulus
  {
    (AsSizeT(FindLastOf(base, BinChars)) - 2) % SizeTModulus
  }

  /** `s.substr(0, count)`: at most `count` leading characters of `s`. */
  function Prefix(s: string, count: nat): (r: string)
    ensures count < |s| ==> |r| == count
    ensures count >= |s| ==> r == s
    ensures r <= s
  {
    if count < |s| then s[..count] else s
  }

  /** The directory separator of the platform the program is built for. */
  datatype Platform = Windows | Posix

  function PathSep(p: Platform): char {
    match p
    case Windows => '\\'
    case Posix => '/'
  }

  /** The resource directory derived from the executable's directory `base`: the
      part before the last `b`, `i` or `n` minus two characters, then `res` and
      the separator. */
  function DeriveBaseRes(base: string, sep: char): (r: string)
    ensures |r| >= 4 && r[|r| - 4..] == "res" + [sep]
    ensures r[..|r| - 4] <= base
  {
    var kept := Prefix(base, ResCut(base));
    assert (kept + "res" + [sep])[..|kept|] == kept;
    kept + "res" + [sep]
  }

  /** An executable directory ending in `bin` and a separator becomes the sibling
      `res` directory. */
  lemma BinDirBecomesResDir(prefix: string, sep: char)
    requires sep !in BinChars
    requires |prefix| < NPos
    ensures DeriveBaseRes(prefix + "bin" + [sep], sep) == prefix + "res" + [sep]
  {
    var base := prefix + "bin" + [sep];
    assert base[..|base| - 1] == prefix + "bin";
    assert FindLastOf(prefix + "bin", BinChars) == FoundAt(|prefix| + 2);
    assert FindLastOf(base, BinChars) == FoundAt(|prefix| + 2);
    assert ResCut(base) == |prefix|;
    assert Prefix(base, |prefix|) == prefix;
  }

  /** The common case on a POSIX system. */
  lemma BinDirExample()
    ensures DeriveBaseRes("/x/bin/", '/') == "/x/res/"
  {
    BinDirBecomesResDir("/x/", '/');
    assert "/x/" + "bin" + ['/'] == "/x/bin/";
  }

  /** How much of the base path survives: when the last `b`, `i` or `n` is at
      index 0 or 1, or absent, the subtraction wraps around and the whole path is
      kept; otherwise everything from two characters before it is dropped. */
  lemma DeriveBaseResCases(base: string, sep: char)
    requires |base| <= SizeTModulus - 3
    ensures var f := FindLastOf(base, BinChars);
            (f.NotFound? || f.index < 2) ==> DeriveBaseRes(base, sep) == base + "res" + [sep]
    ensures var f := FindLastOf(base, BinChars);
            (f.FoundAt? && f.index >= 2) ==> DeriveBaseRes(base, sep) == base[..f.index - 2] + "res" + [sep]
  {
    var f := FindLastOf(base, BinChars);
    WrappingSubtractTwo(AsSizeT(f));
  }

  /** `x - 2` in `size_t`: exact from 2 upwards, wrapping to the top of the range below 2. */
  lemma WrappingSubtractTwo(x: nat)
    requires x < SizeTModulus
    ensures x >= 2 ==> (x - 2) % SizeTModulus == x - 2
    ensures x < 2 ==> (x - 2) % SizeTModulus == SizeTModulus - 2 + x
  {
    var m := SizeTModulus;
    if x < 2 {
      assert x - 2 == (-1) * m + (m - 2 + x);
    }
  }

  /** The cached resource directory (`static std::string base_res`); empty until a
      call has obtained the executable's directory. */
  datatype PathCache = PathCache(baseRes: string)

  /** What `SDL_GetBasePath` returned: nothing (a null pointer) or a path. */
  datatype BasePath = Unavailable | Available(path: string)

  datatype PathResult = PathResult(path: string, cache: PathCache)

  /** A cache that is empty or holds a derived directory, which ends in the separator. */
  predicate CacheWellFormed(c: PathCache, sep: char) {
    c.baseRes == "" || c.baseRes[|c.baseRes| - 1] == sep
  }

  /** `get_resource_path(sub_dir)`. The executable's directory is consulted only
      while the cache is empty; when it is unavailable the call returns "" and
      leaves the cache empty, so a later call tries again. */
  function GetResourcePath(cache: PathCache, sdlBasePath: BasePath, subDir: string, platform: Platform)
    : (r: PathResult)
    ensures cache.baseRes == "" && sdlBasePath.Unavailable? ==> r.path == "" && r.cache == cache
    ensures cache.baseRes != "" ==> r.cache == cache
    ensures cache.baseRes == "" && sdlBasePath.Available? ==>
              r.cache.baseRes == DeriveBaseRes(sdlBasePath.path, PathSep(platform))
    ensures r.cache.baseRes != "" && subDir == "" ==> r.path == r.cache.baseRes
    ensures r.cache.baseRes != "" && subDir != "" ==> r.path == r.cache.baseRes + subDir + [PathSep(platform)]
    ensures CacheWellFormed(cache, PathSep(platform)) ==>
              CacheWellFormed(r.cache, PathSep(platform))
              && (r.path != "" ==> r.path[|r.path| - 1] == PathSep(platform))
  {
    var sep := PathSep(platform);
    if cache.baseRes == "" && sdlBasePath.Unavailable? then
      PathResult("", cache)
    else
      var baseRes := if cache.baseRes == "" then DeriveBaseRes(sdlBasePath.path, sep) else cache.baseRes;
      var path := if subDir == "" then baseRes else baseRes + subDir + [sep];
      PathResult(path, PathCache(baseRes))
  }

  /** Once the cache is filled, the executable's directory is never consulted again:
      the result does not depend on what `SDL_GetBasePath` would return. */
  lemma CachedPathIgnoresBasePath(cache: PathCache, b1: BasePath, b2: BasePath, subDir: string, platform: Platform)
    requires cache.baseRes != ""
    ensures GetResourcePath(cache, b1, subDir, platform) == GetResourcePath(cache, b2, subDir, platform)
  {
  }

  /** After a successful first call, every later call reuses the same directory,
      whatever the executable's directory is reported as by then. */
  lemma FirstSuccessIsFinal(base: string, sub1: string, later: BasePath, sub2: string, platform: Platform)
    ensures var r1 := GetResourcePath(PathCache(""), Available(base), sub1, platform);
            var r2 := GetResourcePath(r1.cache, later, sub2, platform);
            && r1.cache.baseRes != ""
            && r2.cache == r1.cache
            && (sub2 == sub1 ==> r2.path == r1.path)
  {
  }

  /** A failed call leaves no trace: the next call behaves exactly as a first call. */
  lemma FailureIsRetried(sub1: string, next: BasePath, sub2: string, platform: Platform)
    ensures var r1 := GetResourcePath(PathCache(""), Unavailable, sub1, platform);
            GetResourcePath(r1.cache, next, sub2, platform) == GetResourcePath(PathCache(""), next, sub2, platform)
  {
  }
}

=== FILE: vectors.dfy ===
/**
  Exact real-valued counterparts of the glm value types the camera uses:
  `glm::vec3`, `glm::vec4` and the column-major `glm::mat4`, with the
  arithmetic the camera performs on them (`+`, `-`, scalar `*`, `dot`,
  `cross` and `mat4 * vec4`). Components are mathematical reals, so none of
  the program's IEEE rounding is modelled.
 */
module Vectors {

  datatype Vec3 = Vec3(x: real, y: real, z: real)

  const Zero: Vec3 := Vec3(0.0, 0.0, 0.0)

  function Add(a: Vec3, b: Vec3): Vec3 {
    Vec3(a.x + b.x, a.y + b.y, a.z + b.z)
  }

  function Sub(a: Vec3, b: Vec3): Vec3 {
    Vec3(a.x - b.x, a.y - b.y, a.z - b.z)
  }

  function Scale(k: real, a: Vec3): Vec3 {
    Vec3(k * a.x, k * a.y, k * a.z)
  }

  function Dot(a: Vec3, b: Vec3): real {
    a.x * b.x + a.y * b.y + a.z * b.z
  }

  /** Right-handed cross product, as `glm::cross`. */
  function Cross(a: Vec3, b: Vec3): Vec3 {
    Vec3(a.y * b.z - a.z * b.y,
         a.z * b.x - a.x * b.z,
         a.x * b.y - a.y * b.x)
  }

  /** Squared length `dot(a, a)`. */
  function Norm2(a: Vec3): real {
    Dot(a, a)
  }

  /** The cross product is perpendicular to both of its factors. */
  lemma CrossPerpendicular(a: Vec3, b: Vec3)
    ensures Dot(Cross(a, b), a) == 0.0
    ensures Dot(Cross(a, b), b) == 0.0
  {
  }

  /** Scaling one factor of a dot product scales the product. */
  lemma DotScale(k: real, a: Vec3, b: Vec3)
    ensures Dot(Scale(k, a), b) == k * Dot(a, b)
    ensures Dot(a, Scale(k, b)) == k * Dot(a, b)
  {
  }

  /** `dot(k a, k a) == k^2 dot(a, a)`. */
  lemma Norm2Scale(k: real, a: Vec3)
    ensures Norm2(Scale(k, a)) == k * k * Norm2(a)
  {
  }

  /** Translating a point by `d` moves it by exactly `d`, and translating two points
      by the same `d` keeps their difference. */
  lemma TranslateFacts(p: Vec3, q: Vec3, d: Vec3)
    ensures Sub(Add(p, d), p) == d
    ensures Sub(Add(q, d), Add(p, d)) == Sub(q, p)
  {
  }

  /** Translating by `k d` and then by `-k d` is the identity. */
  lemma TranslateBack(p: Vec3, k: real, d: Vec3)
    ensures Add(Add(p, Scale(k, d)), Scale(-k, d)) == p
  {
  }

  datatype Vec4 = Vec4(x: real, y: real, z: real, w: real)

  /** A 4x4 matrix stored as four columns, as `glm::mat4` is. */
  datatype Mat4 = Mat4(c0: Vec4, c1: Vec4, c2: Vec4, c3: Vec4)

  /** `m * v` for a column-major matrix: the columns weighted by the components of `v`. */
  function MulVec(m: Mat4, v: Vec4): Vec4 {
    Vec4(m.c0.x * v.x + m.c1.x * v.y + m.c2.x * v.z + m.c3.x * v.w,
         m.c0.y * v.x + m.c1.y * v.y + m.c2.y * v.z + m.c3.y * v.w,
         m.c0.z * v.x + m.c1.z * v.y + m.c2.z * v.z + m.c3.z * v.w,
         m.c0.w * v.x + m.c1.w * v.y + m.c2.w * v.z + m.c3.w * v.w)
  }

  /** `vec3(m * vec4(v, 0))`: `m` applied to `v` as a direction (w = 0), truncated to xyz. */
  function TransformDir(m: Mat4, v: Vec3): Vec3 {
    var r := MulVec(m, Vec4(v.x, v.y, v.z, 0.0));
    Vec3(r.x, r.y, r.z)
  }
}
